=== FILE: README.md ===
# Retrieval pipeline of a PDF chat assistant, modelled in Dafny

This project models the backend of a retrieval-augmented chat assistant.
Users upload PDF files. Their text is split into overlapping word windows
("chunks"), embedded by an external service, and stored in an exact L2 vector
index. A query is embedded the same way and answered with the texts of the
four nearest chunks. A separate assistant keeps a conversation history and
sends it, rendered as a prompt, to a hosted chat model.

Modules, one per source file or component:

- `Outcomes` — `Option` and `Result`. A `Failure(msg)` stands for a Python exception whose `str(e)` is `msg`.
- `Text` — Python's argument-less `str.split()` (`Words`) and `sep.join` (`Join`), with their round-trip laws.
- `Chunker` — `chunk_text` from `backend/app/utils.py`.
- `PdfIngest` — page joining and chunk/metadata pairing from `backend/app/pdf_ingest.py`.
- `L2Index` — the exact L2 index (`IndexFlatL2`) the store uses. Distances are integer squared L2. A search ranks the rows by distance and breaks ties by the lower row number. It returns `k` labels and pads with `-1`.
- `VectorStore` — `FaissStore` from `backend/app/vector_store.py`.
- `ChatAssistant` — `AIAssistant` from `backend/app/ai_assistant.py`.
- `Endpoints` — the decision logic of `upload_pdf` and `query` from `backend/app/main.py`.

External services are function-typed parameters, so every contract holds for
every behaviour they might have:

- the embedding service: `seq<string> -> Result<seq<Vector>>`;
- the chat model: `string -> Result<string>`;
- the PDF reader: `seq<bv8> -> Result<seq<string>>`, bytes to page texts;
- the generated session id: a plain string parameter.

State is held in immutable records (`Store`, `Assistant`). Each operation
takes a record and returns the new one.

Behaviour of the code worth knowing, which the model reproduces:

- `chunk_text` does not check its arguments. Outside `0 <= overlap < chunk_size` its loop never ends or skips tokens. The model makes `0 <= overlap < chunkSize` a precondition of `ChunkText` and proves the non-termination separately (`Chunker.LoopNeverEndsWithoutStride`).
- A document of 1000 tokens, chunked 400/50, gives chunks of 400, 400 and 300 tokens (`PdfIngest.ThousandTokenDocument`).
- A search over fewer than `k` rows pads with repeats of the last entry. The search guard `idx < len(self.metadatas)` (vector_store.py:67) lets the index's `-1` padding labels through. Python's `xs[-1]` then selects the last entry. A store with `n < k` entries therefore answers with `k` results, and the last `k - n` of them repeat the last entry (`VectorStore.SearchResults`, `VectorStore.SingleEntryRepeats`).
- `add` creates the index before it embeds anything. A failed `add` on a fresh store therefore leaves an empty index behind, while texts and metadatas stay unchanged.
- When the embedding of a nonempty batch holds no scalars (the service answers `[]`), `add` adds no index row but still extends texts and metadatas, and reports success. The store then holds more texts than index rows (`VectorStore.Add`).
- `add` does not check that `texts` and `metadatas` have the same length. The invariant lemma `VectorStore.AddKeepsWellFormed` takes equal lengths as a hypothesis.

## Model

| member | source | states |
|---|---|---|
| `Text.Words` | backend/app/utils.py:14 | every token of `str.split()` is nonempty and holds no whitespace character |
| `Text.WordsEmptyIff` | backend/app/utils.py:14 | a text has no tokens exactly when it is empty or all whitespace |
| `Text.WordsOfSpaceJoin` | backend/app/utils.py:19 | joining tokens with single spaces and splitting again gives back the same tokens |
| `Text.WordsOfJoin` | backend/app/pdf_ingest.py:10 | splitting a text joined with a whitespace separator gives each part's tokens concatenated in order, so no token spans two parts |
| `Text.JoinSnoc` | backend/app/ai_assistant.py:46 | joining one more part appends the separator and that part to the joined text |
| `Chunker.ChunksFrom` | backend/app/utils.py:16-20 | the loop started at `i` emits a chunk with number `j` exactly when window start `i + j*stride` lies before the end of the tokens, and that chunk is the window `[i + j*stride, i + j*stride + chunk_size)`, clamped to the end, joined by single spaces |
| `Chunker.ChunkText` | backend/app/utils.py:13-21 | chunk `j` is tokens `[j*stride, j*stride + chunk_size)`, clamped to the end and joined by single spaces; `j` is a chunk number exactly when `j*stride` is below the token count |
| `Chunker.ChunkCount` | backend/app/utils.py:16-20 | the number of chunks is `ceil(n / (chunk_size - overlap))` for `n` tokens |
| `Chunker.ChunkTokens` | backend/app/utils.py:17-19 | splitting chunk `j` again gives exactly window `j` of the tokens, which is nonempty and has at most `chunk_size` tokens; the chunk string is nonempty |
| `Chunker.NoChunksIffBlank` | backend/app/utils.py:14-17 | empty or whitespace-only text gives no chunks, and every other text gives at least one |
| `Chunker.EveryTokenCovered` | backend/app/utils.py:17-20 | with `0 <= overlap < chunk_size`, every token position lies inside some chunk's window |
| `Chunker.NoOverlapReassembles` | backend/app/utils.py:18-20 | with overlap 0, the chunks' tokens concatenated are exactly the text's tokens |
| `Chunker.LoopNeverEndsWithoutStride` | backend/app/utils.py:17-20 | when `overlap >= chunk_size` and the text has a token, the loop guard still holds after any number of rounds |
| `Chunker.LoopEndsAfterChunkCount` | backend/app/utils.py:17-20 | with a positive stride, the loop guard holds for exactly as many rounds as there are chunks and then fails |
| `PdfIngest.PairFrom` | backend/app/pdf_ingest.py:15-19 | the enumerate loop pairs chunk `i` with `{source: filename, chunk: i}`, one pair per chunk, in order |
| `PdfIngest.ExtractText` | backend/app/pdf_ingest.py:5-10 | the tokens of the extracted text are the pages' tokens concatenated in page order; a single page is returned as it is |
| `PdfIngest.Ingest` | backend/app/pdf_ingest.py:12-19 | ingest gives one pair per chunk of the text chunked 400/50; pair `i` holds chunk `i` and metadata `(filename, i)`; chunk `i` splits into tokens `[350*i, 350*i + 400)` of the document; `i` is an ordinal exactly when `350*i` is below the token count |
| `PdfIngest.ThousandTokenDocument` | backend/app/pdf_ingest.py:14-19 | a 1000-token document gives 3 chunks, covering tokens 0-399, 350-749 and 700-999, numbered 0, 1, 2 |
| `L2Index.Insert` | backend/app/vector_store.py:64 | inserting a row into a ranked list keeps it ranked and adds exactly that row |
| `L2Index.Rank` | backend/app/vector_store.py:64 | ranking lists every row exactly once, by increasing distance, the lower row first among equal distances |
| `L2Index.Nearest` | backend/app/vector_store.py:64 | one query's answer has `k` labels: `min(k, n)` rows in strictly increasing rank, then `-1`; `L2Index.NearestIsKnnAnswer` shows it is a k-nearest answer |
| `L2Index.NearestIsKnnAnswer` | backend/app/vector_store.py:64 | the search answer has `k` labels; the first `min(k, n)` are distinct rows in nondecreasing distance, none farther than a row left out; the rest are `-1`; among equal distances the lower row comes first |
| `L2Index.SqDistZeroIff` | backend/app/vector_store.py:36 | two vectors of equal length are at L2 distance zero exactly when they are equal |
| `L2Index.ExactMatchComesFirst` | backend/app/vector_store.py:63-64 | when a stored row equals the query, the first label returned is at distance zero |
| `L2Index.TwoNearestExample` | backend/app/vector_store.py:64 | rows at distances 5, 1, 3, 1 answer a search for two with rows 1 then 3 |
| `L2Index.Add` | backend/app/vector_store.py:55 | adding succeeds exactly when every vector has the index dimension, and then appends the vectors as new rows in order |
| `L2Index.Search` | backend/app/vector_store.py:64 | a search succeeds exactly when every query has the index dimension, and answers each query with a k-nearest answer |
| `VectorStore.NewStore` | backend/app/vector_store.py:29-33 | a fresh store has no index and no texts or metadatas, and satisfies the store invariant |
| `VectorStore.CreateIndex` | backend/app/vector_store.py:35-36 | afterwards there is an empty index of the store's dimension, and texts and metadatas are unchanged |
| `VectorStore.Embed` | backend/app/vector_store.py:38-48 | an empty batch yields no vectors, whatever the service would answer; any other batch yields the service's answer |
| `VectorStore.Add` | backend/app/vector_store.py:50-57 | afterwards the index exists with the dimension it already had, or the store's dimension when `add` created it; an embedding failure is the error; an embedding with no scalars always succeeds, adding no rows; a nonempty batch is added exactly when every vector has that dimension, and otherwise the error is the dimension mismatch; on failure texts, metadatas and index rows are unchanged; on success texts and metadatas are the old ones followed by the new ones, and the rows are the old ones followed by the embedded batch when it holds any scalars, unchanged otherwise |
| `VectorStore.AddNothing` | backend/app/vector_store.py:50-57 | `add([], [])` succeeds, creates the index and leaves texts, metadatas and rows unchanged |
| `VectorStore.AddKeepsWellFormed` | backend/app/vector_store.py:50-57 | with equal-length inputs and one nonempty vector per text, `add` keeps `len(texts) == len(metadatas) == index rows` |
| `VectorStore.PyIndex` | backend/app/vector_store.py:68 | Python indexing: defined exactly for `-n <= i < n`, a negative index counting from the end |
| `VectorStore.Collect` | backend/app/vector_store.py:65-69 | the result loop yields at most one result per label, and none when every label fails the guard |
| `VectorStore.CollectInRange` | backend/app/vector_store.py:65-69 | when every label is a valid Python index, result `j` pairs metadata and text of the same entry `labels[j]`, negative labels counting from the end, in label order |
| `VectorStore.Search` | backend/app/vector_store.py:59-69 | no index or no texts gives `[]` whatever the service would answer; otherwise a failing embedding call fails the search with its error, a query vector of the wrong dimension fails it with the dimension mismatch, an empty embedding fails it with the error the index's search raises for an empty one-dimensional query array, and a result has at most `k` entries |
| `VectorStore.SearchResults` | backend/app/vector_store.py:59-69 | on a well-formed nonempty store, exactly `k` results: the `min(k, n)` nearest entries in index order, then the last entry once per padding label |
| `VectorStore.SingleEntryRepeats` | backend/app/vector_store.py:66-68 | a store with one entry answers a search for four with that entry four times |
| `ChatAssistant.NewAssistant` | backend/app/ai_assistant.py:17-24 | the history starts empty; the assistant is disabled with the fixed message exactly when the key is unset or the placeholder; otherwise it has a model |
| `ChatAssistant.DisabledIffPlaceholder` | backend/app/ai_assistant.py:11-19 | once the key is known to be set, the assistant is disabled exactly when the key is the placeholder |
| `ChatAssistant.Greet` | backend/app/ai_assistant.py:26-29 | a disabled assistant greets with its error message, an enabled one with the fixed greeting |
| `ChatAssistant.Chat` | backend/app/ai_assistant.py:31-58 | a disabled assistant returns its error message and does not change; otherwise the history grows by at most two entries, and its earlier entries are kept |
| `ChatAssistant.Render` | backend/app/ai_assistant.py:40-46 | an empty history renders to the empty prompt, one entry to its own line, and a longer history starts with its first line; `ChatAssistant.RenderSnoc` gives each further line |
| `ChatAssistant.RenderSnoc` | backend/app/ai_assistant.py:40-46 | rendering one more turn appends a newline and that turn's `User: `/`Assistant: ` line |
| `ChatAssistant.PromptEndsWithUserTurn` | backend/app/ai_assistant.py:36-46 | the prompt is the earlier history rendered, then the line `User: <input>` |
| `ChatAssistant.ChatSuccess` | backend/app/ai_assistant.py:36-53 | on a reply, the history gains the user turn then the assistant turn, and the reply text is returned |
| `ChatAssistant.ChatFailure` | backend/app/ai_assistant.py:36-58 | on a model error, the history gains only the user turn, and `Error contacting Gemini API: <msg>` is returned |
| `ChatAssistant.HistoryOnlyGrows` | backend/app/ai_assistant.py:31-58 | over any sequence of chats, no earlier history entry is changed or removed |
| `Endpoints.IsPdfName` | backend/app/main.py:37 | the name check accepts exactly the names whose last four characters are `.pdf` in any letter case |
| `Endpoints.Upload` | backend/app/main.py:33-56 | a name that is not PDF, an empty file, an unreadable file and a text-free document each give their error and leave the store unchanged; otherwise a failing `store.add` gives its error with the store `add` left behind, and a successful one reports the chunk count; any failed upload leaves texts and metadatas unchanged |
| `Endpoints.UploadAddsChunks` | backend/app/main.py:46-54 | a successful upload appends every ingested chunk's text and metadata in ingest order, and reports their positive count |
| `Endpoints.SessionFor` | backend/app/main.py:63 | the given session id is kept unless it is missing or empty, in which case the fresh one is used |
| `Endpoints.Query` | backend/app/main.py:58-66 | a failed search becomes an error reply with the search's message |
| `Endpoints.QueryAnswer` | backend/app/main.py:59-64 | the answer is empty before anything is stored; otherwise it is four lines: the nearest entries' texts in index order, then the last entry's text for each padding label |

## Left out

- PDF parsing by PyMuPDF (`fitz.open`, `page.get_text`) is the `PdfReader` parameter. The page texts are an input.
- The embedding and chat network calls are parameters that may fail. The model name and `task_type` arguments are not modelled.
- float32 arithmetic is replaced by integer squared L2 distances. Tie-breaking among equal distances is fixed to the lower row here; the library does not promise it.
- Environment loading, `genai.configure` and the module-level `RuntimeError` for an unset key are not modelled. The key is a parameter, and `DisabledIffPlaceholder` takes "the key is set" as its hypothesis.
- The web framework, async handling, CORS, `uuid4` (a parameter), the unused `user_id`, and `print`/traceback logging are not modelled.
- The `/assistant/greet` and `/assistant/chat` endpoint wrappers (main.py:71-90) are not modelled. They only wrap `Greet` and `Chat` in a reply record.
- The Streamlit front end is not part of this model.
- There is no concurrency: the code has no lock, and operations are modelled one at a time.
- Chunker.ChunkText: requires `0 <= overlap < chunkSize`. The source does not check this. Outside that range its loop never ends (`LoopNeverEndsWithoutStride`) or skips tokens. Python's negative slice bounds for a non-positive `chunk_size` are not modelled.
- Endpoints.IsPdfName: only ASCII letters are lower-cased. Python's full Unicode `str.lower` is not modelled.
- Endpoints.Upload: a missing file name (`None`) is not modelled.
- VectorStore.Search: what the index library does for `k = 0` is not modelled. The endpoint always asks for 4.
- VectorStore.Add: numpy's rejection of ragged embedding batches is folded into the index's dimension check. Exception texts from the libraries are abstract strings.
- VectorStore.AddKeepsWellFormed: assumes the service answers with one nonempty vector per text. The code does not check this.

=== FILE: chat_assistant.dfy ===
/** `AIAssistant`: a conversation history and a chat model reached through an
    oracle `ChatModel` that may fail. The assistant is disabled, with a fixed
    error message, when the configured key is missing or is the placeholder. */
module ChatAssistant {
  import opened Outcomes
  import opened Text

  /** The chat model: a prompt to the reply text, or an error. */
  type ChatModel = string -> Result<string>

  /** One history entry, `{"role": ..., "content": ...}`. */
  datatype Turn = Turn(role: string, content: string)

  /** `error_msg`, the model name when a model was created, and `history`. */
  datatype Assistant = Assistant(errorMsg: Option<string>, model: Option<string>, history: seq<Turn>)

  const PlaceholderKey: string := "your_gemini_api_key_here"
  const NotConfigured: string := "GEMINI_API_KEY not configured. Please add a valid API key to .env"
  const Greeting: string := "Hi! I am your AI assistant. How can I help you today?"
  const ApiErrorPrefix: string := "Error contacting Gemini API: "
  const UserRole: string := "user"
  const AssistantRole: string := "assistant"

  /** `AIAssistant()` with the configured key (empty when unset) and chat
      model name. */
  function NewAssistant(apiKey: string, modelName: string): (a: Assistant)
    ensures a.history == []
    ensures a.errorMsg.Some? <==> apiKey == "" || apiKey == PlaceholderKey
    ensures a.errorMsg.Some? ==> a.errorMsg.value == NotConfigured && a.model.None?
    ensures a.errorMsg.None? ==> a.model == Some(modelName)
  {
    if apiKey == "" || apiKey == PlaceholderKey then Assistant(Some(NotConfigured), None, [])
    else Assistant(None, Some(modelName), [])
  }

  /** `greet()`. */
  function Greet(a: Assistant): (reply: string)
    ensures a.errorMsg.Some? ==> reply == a.errorMsg.value
    ensures a.errorMsg.None? ==> reply == Greeting
  {
    match a.errorMsg
    case Some(msg) => msg
    case None => Greeting
  }

  /** One history entry as a prompt line. */
  function RenderTurn(t: Turn): string
  {
    if t.role == UserRole then "User: " + t.content else "Assistant: " + t.content
  }

  /** The prompt: every history entry rendered, in order, one per line. An
      empty history gives an empty prompt, and the prompt starts with the
      first entry's line. */
  function Render(history: seq<Turn>): (prompt: string)
    ensures history == [] ==> prompt == ""
    ensures |history| == 1 ==> prompt == RenderTurn(history[0])
    ensures |history| > 0 ==> RenderTurn(history[0]) <= prompt
  {
    Join("\n", seq(|history|, i requires 0 <= i < |history| => RenderTurn(history[i])))
  }

  /** The state after `chat` and the text it returned. */
  datatype ChatOutcome = ChatOutcome(assistant: Assistant, reply: string)

  /** `chat(user_input)`: a disabled assistant answers with its error message;
      otherwise the user turn is appended, the whole history is sent as one
      prompt, and the reply is appended and returned. When the model fails
      the error text is returned and the user turn stays in the history. */
  function Chat(a: Assistant, userInput: string, model: ChatModel): (r: ChatOutcome)
    ensures a.errorMsg.Some? ==> r == ChatOutcome(a, a.errorMsg.value)
    ensures r.assistant.errorMsg == a.errorMsg && r.assistant.model == a.model
    ensures |a.history| <= |r.assistant.history| <= |a.history| + 2
    ensures r.assistant.history[..|a.history|] == a.history
  {
    match a.errorMsg
    case Some(msg) => ChatOutcome(a, msg)
    case None =>
      var history := a.history + [Turn(UserRole, userInput)];
      match model(Render(history))
      case Success(text) =>
        ChatOutcome(a.(history := history + [Turn(AssistantRole, text)]), text)
      case Failure(e) =>
        ChatOutcome(a.(history := history), ApiErrorPrefix + e)
  }

  // ---------------------------------------------------------------------
  // Lemmas
  // ---------------------------------------------------------------------

  /** The module only gets as far as building an assistant when a key is
      set; then the assistant is disabled exactly for the placeholder key. */
  lemma DisabledIffPlaceholder(apiKey: string, modelName: string)
    requires apiKey != ""
    ensures NewAssistant(apiKey, modelName).errorMsg.Some? <==> apiKey == PlaceholderKey
  {
  }

  /** Rendering one more turn adds one line at the end. */
  lemma RenderSnoc(history: seq<Turn>, t: Turn)
    ensures Render(history + [t]) ==
      if |history| == 0 then RenderTurn(t) else Render(history) + "\n" + RenderTurn(t)
  {
    var lines := seq(|history|, i requires 0 <= i < |history| => RenderTurn(history[i]));
    var h := history + [t];
    assert seq(|h|, i requires 0 <= i < |h| => RenderTurn(h[i])) == lines + [RenderTurn(t)];
    JoinSnoc("\n", lines, RenderTurn(t));
  }

  /** The prompt sent by `chat` is the earlier history rendered, followed by
      the line `User: <input>`. */
  lemma PromptEndsWithUserTurn(a: Assistant, userInput: string)
    ensures var prompt := Render(a.history + [Turn(UserRole, userInput)]);
      prompt == (if |a.history| == 0 then "" else Render(a.history) + "\n") + "User: " + userInput
  {
    RenderSnoc(a.history, Turn(UserRole, userInput));
  }

  /** A successful exchange adds the user turn and then the assistant turn,
      and returns the model's reply to the rendered history. */
  lemma ChatSuccess(a: Assistant, userInput: string, model: ChatModel)
    requires a.errorMsg.None?
    requires model(Render(a.history + [Turn(UserRole, userInput)])).Success?
    ensures var r, text := Chat(a, userInput, model), model(Render(a.history + [Turn(UserRole, userInput)])).value;
      && r.reply == text
      && r.assistant.history == a.history + [Turn(UserRole, userInput), Turn(AssistantRole, text)]
  {
  }

  /** A failed exchange keeps the dangling user turn and returns the error
      text with its fixed prefix. */
  lemma ChatFailure(a: Assistant, userInput: string, model: ChatModel)
    requires a.errorMsg.None?
    requires model(Render(a.history + [Turn(UserRole, userInput)])).Failure?
    ensures var r, e := Chat(a, userInput, model), model(Render(a.history + [Turn(UserRole, userInput)])).error;
      && r.reply == ApiErrorPrefix + e
      && r.assistant.history == a.history + [Turn(UserRole, userInput)]
  {
  }

  /** The history only grows: over any sequence of chats, each earlier entry
      stays where it was. */
  lemma {:induction false} HistoryOnlyGrows(a: Assistant, inputs: seq<string>, model: ChatModel)
    ensures var b := ChatAll(a, inputs, model);
      |b.history| >= |a.history| && b.history[..|a.history|] == a.history
    decreases |inputs|
  {
    if |inputs| > 0 {
      var a1 := Chat(a, inputs[0], model).assistant;
      HistoryOnlyGrows(a1, inputs[1..], model);
      var b := ChatAll(a, inputs, model);
      assert b == ChatAll(a1, inputs[1..], model);
      assert b.history[..|a.history|] == b.history[..|a1.history|][..|a.history|];
    }
  }

  /** The assistant after a sequence of chats. */
  function ChatAll(a: Assistant, inputs: seq<string>, model: ChatModel): Assistant
    decreases |inputs|
  {
    if |inputs| == 0 then a else ChatAll(Chat(a, inputs[0], model).assistant, inputs[1..], model)
  }
}

=== FILE: chunker.dfy ===
/** The word-window chunker `chunk_text`: split the text into whitespace
    tokens, emit windows of `chunkSize` tokens whose starts advance by
    `chunkSize - overlap`, and join each window's tokens with single spaces. */
module Chunker {
  import opened Numbers
  import opened Text

  /** Start position of window `j` when starts advance by `stride`: zero,
      then `stride` more for each window before it. */
  function Start(j: nat, stride: nat): nat
  {
    if j == 0 then 0 else Start(j - 1, stride) + stride
  }

  /** The stride of the loop, `chunk_size - overlap`. */
  function Stride(chunkSize: int, overlap: int): nat
    requires overlap < chunkSize
  {
    chunkSize - overlap
  }

  lemma {:induction false} StartIsProduct(j: nat, stride: nat)
    ensures Start(j, stride) == j * stride
  {
    if j > 0 {
      StartIsProduct(j - 1, stride);
    }
  }

  /** Window `j` of the loop started at position `i`: the slice
      `tokens[i + j*stride : i + j*stride + size]`, clamped to the end as
      Python slicing does. */
  function WindowFrom(tokens: seq<string>, i: nat, size: nat, stride: nat, j: nat): seq<string>
  {
    var lo := Min(i + Start(j, stride), |tokens|);
    tokens[lo .. Min(lo + size, |tokens|)]
  }

  /** Window `j` of the whole token list. */
  function Window(tokens: seq<string>, size: nat, stride: nat, j: nat): seq<string>
  {
    WindowFrom(tokens, 0, size, stride, j)
  }

  /** Chunk `j` of `r` is window `j` (from `i`) joined by single spaces. */
  predicate EmitsWindows(tokens: seq<string>, i: nat, size: nat, stride: nat, r: seq<string>)
  {
    forall j: nat :: j < |r| ==> r[j] == Join(" ", WindowFrom(tokens, i, size, stride, j))
  }

  /** The `while i < len(tokens)` loop of `chunk_text`, run from position
      `i`: it emits chunk number `j` exactly when window start
      `i + j*stride` lies before the end of the tokens, and that chunk is
      the window's tokens joined by single spaces. */
  function ChunksFrom(tokens: seq<string>, i: nat, size: nat, stride: nat): (r: seq<string>)
    requires stride > 0
    ensures forall j: nat :: j < |r| <==> i + Start(j, stride) < |tokens|
    ensures EmitsWindows(tokens, i, size, stride, r)
    decreases |tokens| - i
  {
    if i >= |tokens| then []
    else
      var rest := ChunksFrom(tokens, i + stride, size, stride);
      var first := Join(" ", tokens[i .. Min(i + size, |tokens|)]);
      CountStep(|tokens|, i, stride, first, rest);
      WindowStep(tokens, i, size, stride, rest);
      [first] + rest
  }

  /** One round of the loop, for the count: the chunks from `i + stride`
      are numbered from there, so one more chunk in front numbers them from
      `i`. */
  lemma CountStep(n: nat, i: nat, stride: nat, first: string, rest: seq<string>)
    requires stride > 0 && i < n
    requires forall j: nat :: j < |rest| <==> i + stride + Start(j, stride) < n
    ensures forall j: nat :: j < |[first] + rest| <==> i + Start(j, stride) < n
  {
    forall j: nat
      ensures j < |[first] + rest| <==> i + Start(j, stride) < n
    {
      if j > 0 {
        assert Start(j, stride) == Start(j - 1, stride) + stride;
      }
    }
  }

  /** One round of the loop, for the contents: the window at `i` followed
      by the windows from `i + stride` are the windows from `i`. */
  lemma WindowStep(tokens: seq<string>, i: nat, size: nat, stride: nat, rest: seq<string>)
    requires stride > 0 && i < |tokens|
    requires EmitsWindows(tokens, i + stride, size, stride, rest)
    ensures EmitsWindows(tokens, i, size, stride, [Join(" ", tokens[i .. Min(i + size, |tokens|)])] + rest)
  {
    var r := [Join(" ", tokens[i .. Min(i + size, |tokens|)])] + rest;
    forall j: nat | 0 < j < |r|
      ensures r[j] == Join(" ", WindowFrom(tokens, i, size, stride, j))
    {
      assert r[j] == rest[j - 1];
      assert i + Start(j, stride) == i + stride + Start(j - 1, stride);
    }
  }

  /** `chunk_text(text, chunk_size, overlap)`: chunk `j` is window `j` of the
      text's tokens joined by single spaces, and `j` is a chunk number exactly
      when its start `j * stride` lies before the end of the tokens. The
      source performs no argument check; outside `0 <= overlap < chunkSize`
      its loop either never ends or skips tokens, so the model takes that
      range as a precondition. */
  function ChunkText(text: string, chunkSize: int, overlap: int): (chunks: seq<string>)
    requires 0 <= overlap < chunkSize
    ensures forall j: nat :: j < |chunks| <==> Start(j, Stride(chunkSize, overlap)) < |Words(text)|
    ensures forall j :: 0 <= j < |chunks| ==>
      chunks[j] == Join(" ", Window(Words(text), chunkSize, Stride(chunkSize, overlap), j))
  {
    ChunksFrom(Words(text), 0, chunkSize, Stride(chunkSize, overlap))
  }

  // ---------------------------------------------------------------------
  // Chunk count
  // ---------------------------------------------------------------------

  /** The chunk count is `ceil(n / (chunkSize - overlap))` for `n` tokens. */
  lemma ChunkCount(text: string, chunkSize: int, overlap: int)
    requires 0 <= overlap < chunkSize
    ensures var n, stride := |Words(text)|, Stride(chunkSize, overlap);
      |ChunkText(text, chunkSize, overlap)| == (n + stride - 1) / stride
  {
    var n, stride := |Words(text)|, Stride(chunkSize, overlap);
    var m := |ChunkText(text, chunkSize, overlap)|;
    assert Start(m, stride) >= n && (m > 0 ==> Start(m - 1, stride) < n);
    CeilFromStarts(n, stride, m);
  }

  /** `m` is `ceil(n / stride)` when start `m` is the first at or past `n`. */
  lemma CeilFromStarts(n: nat, stride: nat, m: nat)
    requires stride > 0
    requires Start(m, stride) >= n && (m > 0 ==> Start(m - 1, stride) < n)
    ensures m == (n + stride - 1) / stride
  {
    StartIsProduct(m, stride);
    if m > 0 {
      StartIsProduct(m - 1, stride);
      assert (m - 1) * stride == m * stride - stride;
    }
    DivBetween(n + stride - 1, stride, m);
  }

  lemma DivBetween(x: int, d: int, q: int)
    requires d > 0 && q * d <= x < q * d + d
    ensures x / d == q
  {
    var q', r' := x / d, x % d;
    assert x == q' * d + r' && 0 <= r' < d;
    assert (q + 1) * d == q * d + d;
    assert (q' + 1) * d == q' * d + d;
    MulMonotone(q + 1, q', d);
    MulMonotone(q' + 1, q, d);
  }

  lemma MulMonotone(a: int, b: int, d: nat)
    ensures a <= b ==> a * d <= b * d
  {
    if a <= b {
      var e: nat := b - a;
      assert b * d == a * d + e * d;
    }
  }

  // ---------------------------------------------------------------------
  // Properties of the chunks
  // ---------------------------------------------------------------------

  /** Splitting chunk `j` again gives exactly window `j` of the tokens, which
      is nonempty and holds at most `chunkSize` tokens. */
  lemma ChunkTokens(text: string, chunkSize: int, overlap: int, j: nat)
    requires 0 <= overlap < chunkSize
    requires j < |ChunkText(text, chunkSize, overlap)|
    ensures var w := Window(Words(text), chunkSize, Stride(chunkSize, overlap), j);
      && Words(ChunkText(text, chunkSize, overlap)[j]) == w
      && 0 < |w| <= chunkSize
      && ChunkText(text, chunkSize, overlap)[j] != ""
  {
    var tokens := Words(text);
    var w := Window(tokens, chunkSize, Stride(chunkSize, overlap), j);
    var lo := Min(Start(j, Stride(chunkSize, overlap)), |tokens|);
    AllWordsSlice(tokens, lo, Min(lo + chunkSize, |tokens|));
    WordsOfSpaceJoin(w);
  }

  /** Empty or whitespace-only text yields no chunks, and any other text
      yields at least one. */
  lemma NoChunksIffBlank(text: string, chunkSize: int, overlap: int)
    requires 0 <= overlap < chunkSize
    ensures ChunkText(text, chunkSize, overlap) == [] <==> AllSpace(text)
  {
    WordsEmptyIff(text);
    assert Start(0, Stride(chunkSize, overlap)) == 0;
  }

  /** The window start at or just below position `p`. */
  lemma {:induction false} StartBelow(p: nat, stride: nat) returns (j: nat)
    requires stride > 0
    ensures Start(j, stride) <= p < Start(j, stride) + stride
    decreases p
  {
    if p < stride {
      j := 0;
    } else {
      var j' := StartBelow(p - stride, stride);
      j := j' + 1;
    }
  }

  /** With `0 <= overlap < chunkSize` every token lies in some window. */
  lemma EveryTokenCovered(text: string, chunkSize: int, overlap: int, p: nat)
    requires 0 <= overlap < chunkSize
    requires p < |Words(text)|
    ensures exists j: nat ::
      && j < |ChunkText(text, chunkSize, overlap)|
      && Start(j, Stride(chunkSize, overlap)) <= p < Start(j, Stride(chunkSize, overlap)) + chunkSize
  {
    var stride := Stride(chunkSize, overlap);
    var j := StartBelow(p, stride);
    assert j < |ChunkText(text, chunkSize, overlap)|;
  }

  lemma {:induction false} ChunksFromNoOverlap(tokens: seq<string>, i: nat, size: nat)
    requires size > 0 && i <= |tokens| && AllWords(tokens)
    ensures Flatten(WordsOfEach(ChunksFrom(tokens, i, size, size))) == tokens[i..]
    decreases |tokens| - i
  {
    var chunks := ChunksFrom(tokens, i, size, size);
    if i < |tokens| {
      NoOverlapStep(tokens, i, size);
      if i + size <= |tokens| {
        var rest := ChunksFrom(tokens, i + size, size, size);
        ChunksFromNoOverlap(tokens, i + size, size);
        assert Flatten(WordsOfEach(rest)) == tokens[i + size..];
        assert Min(i + size, |tokens|) == i + size;
        SliceSplit(tokens, i, i + size);
      } else {
        var rest := ChunksFrom(tokens, i + size, size, size);
        assert rest == [];
        assert WordsOfEach(rest) == [];
      }
    } else {
      assert chunks == [];
      assert WordsOfEach(chunks) == [];
    }
  }

  /** One round of the loop with no overlap contributes its window's tokens. */
  lemma NoOverlapStep(tokens: seq<string>, i: nat, size: nat)
    requires size > 0 && i < |tokens| && AllWords(tokens)
    ensures Flatten(WordsOfEach(ChunksFrom(tokens, i, size, size)))
         == tokens[i .. Min(i + size, |tokens|)] + Flatten(WordsOfEach(ChunksFrom(tokens, i + size, size, size)))
  {
    var hi := Min(i + size, |tokens|);
    AllWordsSlice(tokens, i, hi);
    WordsOfSpaceJoin(tokens[i .. hi]);
    WordsOfEachCons(Join(" ", tokens[i .. hi]), ChunksFrom(tokens, i + size, size, size));
  }

  lemma SliceSplit<T>(s: seq<T>, i: nat, j: nat)
    requires i <= j <= |s|
    ensures s[i..] == s[i..j] + s[j..]
  {
  }

  lemma WordsOfEachCons(x: string, rest: seq<string>)
    ensures Flatten(WordsOfEach([x] + rest)) == Words(x) + Flatten(WordsOfEach(rest))
  {
    assert WordsOfEach([x] + rest) == [Words(x)] + WordsOfEach(rest);
    assert ([Words(x)] + WordsOfEach(rest))[1..] == WordsOfEach(rest);
  }

  /** With no overlap the chunks' tokens, concatenated, are the text's
      tokens: nothing is lost, repeated or reordered. */
  lemma NoOverlapReassembles(text: string, chunkSize: int)
    requires 0 < chunkSize
    ensures Flatten(WordsOfEach(ChunkText(text, chunkSize, 0))) == Words(text)
  {
    ChunksFromNoOverlap(Words(text), 0, chunkSize);
  }

  // ---------------------------------------------------------------------
  // Termination of the loop
  // ---------------------------------------------------------------------

  /** The value of `i` after `k` rounds of `i += chunk_size - overlap`. */
  function StartAfter(k: nat, chunkSize: int, overlap: int): int
  {
    if k == 0 then 0 else StartAfter(k - 1, chunkSize, overlap) + (chunkSize - overlap)
  }

  lemma {:induction false} StartAfterNonPositive(k: nat, chunkSize: int, overlap: int)
    requires chunkSize - overlap <= 0
    ensures StartAfter(k, chunkSize, overlap) <= 0
  {
    if k > 0 {
      StartAfterNonPositive(k - 1, chunkSize, overlap);
    }
  }

  lemma {:induction false} StartAfterIsStart(k: nat, chunkSize: int, overlap: int)
    requires chunkSize - overlap > 0
    ensures StartAfter(k, chunkSize, overlap) == Start(k, Stride(chunkSize, overlap))
  {
    if k > 0 {
      StartAfterIsStart(k - 1, chunkSize, overlap);
    }
  }

  /** When `overlap >= chunkSize` and the text has a token, the loop guard
      `i < len(tokens)` holds after every number of rounds: the loop never
      ends. */
  lemma LoopNeverEndsWithoutStride(text: string, chunkSize: int, overlap: int, k: nat)
    requires chunkSize - overlap <= 0
    requires |Words(text)| > 0
    ensures StartAfter(k, chunkSize, overlap) < |Words(text)|
  {
    StartAfterNonPositive(k, chunkSize, overlap);
  }

  /** When `0 <= overlap < chunkSize` the loop guard first fails after exactly
      as many rounds as there are chunks. */
  lemma LoopEndsAfterChunkCount(text: string, chunkSize: int, overlap: int)
    requires 0 <= overlap < chunkSize
    ensures var m := |ChunkText(text, chunkSize, overlap)|;
      && StartAfter(m, chunkSize, overlap) >= |Words(text)|
      && forall k: nat :: k < m ==> StartAfter(k, chunkSize, overlap) < |Words(text)|
  {
    var m := |ChunkText(text, chunkSize, overlap)|;
    StartAfterIsStart(m, chunkSize, overlap);
    forall k: nat | k < m ensures StartAfter(k, chunkSize, overlap) < |Words(text)| {
      StartAfterIsStart(k, chunkSize, overlap);
    }
  }
}

=== FILE: endpoints.dfy ===
/** The decision logic of the two document endpoints: `upload_pdf` validates
    the upload, ingests it and adds the chunks to the store; `query` searches
    the store for four results and joins their texts into the answer. The web
    framework is left out; the PDF reader, the embedding service and the
    session id generator are parameters. Every exception raised along the way
    becomes an error reply carrying its message. */
module Endpoints {
  import opened Outcomes
  import opened Text
  import opened PdfIngest
  import VectorStore

  /** The PDF library: file bytes to page texts, or an error for a file it
      cannot parse. */
  type PdfReader = seq<bv8> -> Result<seq<string>>

  type DocStore = VectorStore.Store<Meta>

  datatype UploadReply = UploadFailed(detail: string) | UploadDone(addedChunks: nat)

  /** The store after an upload, and the reply. */
  datatype UploadOutcome = UploadOutcome(store: DocStore, reply: UploadReply)

  datatype QueryReply = QueryFailed(detail: string) | Answered(sessionId: string, answer: string)

  const NotPdf: string := "Only PDF files are allowed."
  const EmptyUpload: string := "Uploaded file is empty."
  const NoText: string := "No text could be extracted from the PDF."
  const PdfSuffix: string := ".pdf"
  const QueryResults: nat := 4

  /** `str.lower` on one character, for the ASCII letters. */
  function LowerChar(c: char): char
  {
    if 'A' <= c <= 'Z' then (c as int + 32) as char else c
  }

  function Lower(s: string): (r: string)
    ensures |r| == |s|
    ensures forall i :: 0 <= i < |s| ==> r[i] == LowerChar(s[i])
  {
    seq(|s|, i requires 0 <= i < |s| => LowerChar(s[i]))
  }

  predicate EndsWith(s: string, suffix: string)
  {
    |suffix| <= |s| && s[|s| - |suffix|..] == suffix
  }

  /** `filename.lower().endswith('.pdf')`: the last four characters are
      `.pdf` in any mix of upper and lower case. */
  predicate IsPdfName(filename: string)
    ensures IsPdfName(filename) <==>
      var n := |filename|;
      && n >= 4
      && filename[n - 4] == '.'
      && (filename[n - 3] == 'p' || filename[n - 3] == 'P')
      && (filename[n - 2] == 'd' || filename[n - 2] == 'D')
      && (filename[n - 1] == 'f' || filename[n - 1] == 'F')
  {
    var lowered := Lower(filename);
    var n := |lowered|;
    assert n >= 4 ==> lowered[n - 4..] == [lowered[n - 4], lowered[n - 3], lowered[n - 2], lowered[n - 1]];
    EndsWith(lowered, PdfSuffix)
  }

  /** The chunk texts of an ingest result, in order. */
  function ChunkTexts(chunks: seq<(string, Meta)>): (r: seq<string>)
    ensures |r| == |chunks| && forall i :: 0 <= i < |chunks| ==> r[i] == chunks[i].0
  {
    seq(|chunks|, i requires 0 <= i < |chunks| => chunks[i].0)
  }

  /** The chunk metadatas of an ingest result, in order. */
  function ChunkMetas(chunks: seq<(string, Meta)>): (r: seq<Meta>)
    ensures |r| == |chunks| && forall i :: 0 <= i < |chunks| ==> r[i] == chunks[i].1
  {
    seq(|chunks|, i requires 0 <= i < |chunks| => chunks[i].1)
  }

  /** `upload_pdf(file)`: reject a name without the `.pdf` suffix, then an
      empty file, then a document without text; otherwise add every chunk
      and report how many were added. */
  function Upload(s: DocStore, filename: string, content: seq<bv8>, reader: PdfReader,
                  service: VectorStore.Embedder): (r: UploadOutcome)
    ensures !IsPdfName(filename) ==> r == UploadOutcome(s, UploadFailed(NotPdf))
    ensures IsPdfName(filename) && |content| == 0 ==> r == UploadOutcome(s, UploadFailed(EmptyUpload))
    ensures IsPdfName(filename) && |content| > 0 && reader(content).Success?
            && Ingest(reader(content).value, filename) == []
            ==> r == UploadOutcome(s, UploadFailed(NoText))
    ensures IsPdfName(filename) && |content| > 0 && reader(content).Failure?
            ==> r == UploadOutcome(s, UploadFailed(reader(content).error))
    ensures IsPdfName(filename) && |content| > 0 && reader(content).Success? ==>
      var chunks := Ingest(reader(content).value, filename);
      var added := VectorStore.Add(s, ChunkTexts(chunks), ChunkMetas(chunks), service);
      && (chunks != [] && added.error.Some? ==> r == UploadOutcome(added.store, UploadFailed(added.error.value)))
      && (chunks != [] && added.error.None? ==> r == UploadOutcome(added.store, UploadDone(|chunks|)))
    ensures r.reply.UploadFailed? ==> r.store.texts == s.texts && r.store.metadatas == s.metadatas
  {
    if !IsPdfName(filename) then UploadOutcome(s, UploadFailed(NotPdf))
    else if |content| == 0 then UploadOutcome(s, UploadFailed(EmptyUpload))
    else
      match reader(content)
      case Failure(e) => UploadOutcome(s, UploadFailed(e))
      case Success(pages) =>
        var chunks := Ingest(pages, filename);
        var texts := ChunkTexts(chunks);
        if |texts| == 0 then UploadOutcome(s, UploadFailed(NoText))
        else
          var added := VectorStore.Add(s, texts, ChunkMetas(chunks), service);
          match added.error
          case Some(e) => UploadOutcome(added.store, UploadFailed(e))
          case None => UploadOutcome(added.store, UploadDone(|texts|))
  }

  /** `session_id or str(uuid4())`: the given id unless it is missing or
      empty, in which case the freshly generated one. */
  function SessionFor(sessionId: Option<string>, freshId: string): (id: string)
    ensures sessionId.Some? && sessionId.value != "" ==> id == sessionId.value
    ensures sessionId.None? || sessionId.value == "" ==> id == freshId
  {
    match sessionId
    case Some(given) => if given != "" then given else freshId
    case None => freshId
  }

  /** The texts of the search results, in result order. */
  function HitTexts(hits: seq<VectorStore.Hit<Meta>>): (r: seq<string>)
    ensures |r| == |hits| && forall i :: 0 <= i < |hits| ==> r[i] == hits[i].text
  {
    seq(|hits|, i requires 0 <= i < |hits| => hits[i].text)
  }

  /** `query(session_id, query)`: search for four results and answer with
      their texts, one per line. */
  function Query(s: DocStore, sessionId: Option<string>, freshId: string, query: string,
                 service: VectorStore.Embedder): (r: QueryReply)
    ensures VectorStore.Search(s, query, QueryResults, service).Failure? ==>
      r == QueryFailed(VectorStore.Search(s, query, QueryResults, service).error)
  {
    match VectorStore.Search(s, query, QueryResults, service)
    case Failure(e) => QueryFailed(e)
    case Success(hits) => Answered(SessionFor(sessionId, freshId), Join("\n", HitTexts(hits)))
  }

  // ---------------------------------------------------------------------
  // Lemmas
  // ---------------------------------------------------------------------

  /** A successful upload adds every chunk of the document in ingest order,
      with metadata `{source: filename, chunk: i}`, and reports their number. */
  lemma UploadAddsChunks(s: DocStore, filename: string, content: seq<bv8>, reader: PdfReader,
                         service: VectorStore.Embedder)
    requires Upload(s, filename, content, reader, service).reply.UploadDone?
    ensures reader(content).Success?
    ensures var r, chunks := Upload(s, filename, content, reader, service), Ingest(reader(content).value, filename);
      && r.reply.addedChunks == |chunks| > 0
      && r.store.texts == s.texts + ChunkTexts(chunks)
      && r.store.metadatas == s.metadatas + ChunkMetas(chunks)
      && forall i :: 0 <= i < |chunks| ==> r.store.metadatas[|s.metadatas| + i] == Meta(filename, i)
  {
  }

  /** Before anything has been added the answer is empty; otherwise, on a
      well-formed store whose query embeds to one vector of the store's
      dimension, the answer has four lines: the texts of the nearest entries
      in index order, then the last entry's text for each padding label. */
  lemma QueryAnswer(s: DocStore, sessionId: Option<string>, freshId: string, query: string,
                    service: VectorStore.Embedder)
    requires VectorStore.WellFormed(s)
    requires |s.texts| > 0 ==>
      && service([query]).Success? && |service([query]).value| == 1
      && |service([query]).value[0]| == s.dim
    ensures var r := Query(s, sessionId, freshId, query, service);
      && r.Answered?
      && r.sessionId == SessionFor(sessionId, freshId)
      && (|s.texts| == 0 ==> r.answer == "")
      && (|s.texts| > 0 ==>
           var n := |s.texts|;
           var d := VectorStore.L2Index.Distances(VectorStore.Rows(s), service([query]).value[0]);
           var labels := VectorStore.L2Index.Nearest(d, QueryResults);
           r.answer == Join("\n", seq(QueryResults, j requires 0 <= j < QueryResults =>
                         if j < n then s.texts[labels[j]] else s.texts[n - 1])))
  {
    if |s.texts| > 0 {
      var q := service([query]).value[0];
      assert service([query]).value == [q];
      VectorStore.SearchResults(s, query, q, QueryResults, service);
      var hits := VectorStore.Search(s, query, QueryResults, service).value;
      var n := |s.texts|;
      var d := VectorStore.L2Index.Distances(VectorStore.Rows(s), service([query]).value[0]);
      var labels := VectorStore.L2Index.Nearest(d, QueryResults);
      assert HitTexts(hits) == seq(QueryResults, j requires 0 <= j < QueryResults =>
                         if j < n then s.texts[labels[j]] else s.texts[n - 1]);
    }
  }
}

=== FILE: l2_index.dfy ===
/** The exact (brute-force) L2 index the store keeps its embeddings in. Rows
    are appended in insertion order; a search ranks every row by squared
    Euclidean distance to the query and returns `k` row labels per query,
    padding with `-1` when the index holds fewer than `k` rows. Distances are
    integers here, standing in for the library's float32 arithmetic. */
module L2Index {
  import opened Outcomes
  import opened Numbers

  type Vector = seq<int>

  datatype FlatIndex = FlatIndex(dim: nat, rows: seq<Vector>)

  /** The label the index reports for a slot it has no row for. */
  const Missing: int := -1

  /** Message of the error the index raises for a vector of another dimension. */
  const DimensionMismatch: string := "dimension mismatch"

  function Square(x: int): nat
  {
    if x < 0 then (-x) * (-x) else x * x
  }

  /** Squared Euclidean distance over the common coordinates. */
  function SqDist(a: Vector, b: Vector): nat
  {
    if |a| == 0 || |b| == 0 then 0 else Square(a[0] - b[0]) + SqDist(a[1..], b[1..])
  }

  function Distances(rows: seq<Vector>, q: Vector): (d: seq<nat>)
    ensures |d| == |rows|
    ensures forall i :: 0 <= i < |rows| ==> d[i] == SqDist(rows[i], q)
  {
    seq(|rows|, i requires 0 <= i < |rows| => SqDist(rows[i], q))
  }

  // ---------------------------------------------------------------------
  // Ranking rows by distance
  // ---------------------------------------------------------------------

  /** Row `a` ranks before row `b`: strictly closer, or equally close and
      added earlier. */
  predicate Precedes(d: seq<nat>, a: nat, b: nat)
    requires a < |d| && b < |d|
  {
    d[a] < d[b] || (d[a] == d[b] && a < b)
  }

  /** `s` lists rows of `d` in strictly increasing rank. */
  predicate Ranked(d: seq<nat>, s: seq<nat>)
  {
    && (forall i :: 0 <= i < |s| ==> s[i] < |d|)
    && (forall i, j :: 0 <= i < j < |s| ==> Precedes(d, s[i], s[j]))
  }

  /** Insert row `x` into a ranked list at its place. */
  function Insert(d: seq<nat>, x: nat, s: seq<nat>): (r: seq<nat>)
    requires x < |d| && Ranked(d, s) && x !in s
    ensures Ranked(d, r)
    ensures |r| == |s| + 1
    ensures forall y :: y in r <==> y == x || y in s
  {
    if |s| == 0 then [x]
    else if Precedes(d, x, s[0]) then [x] + s
    else
      var tail := Insert(d, x, s[1..]);
      assert forall y :: y in s[1..] ==> Precedes(d, s[0], y) by {
        forall y | y in s[1..] ensures Precedes(d, s[0], y) {
          var i :| 0 <= i < |s[1..]| && s[1..][i] == y;
          assert s[i + 1] == y;
        }
      }
      [s[0]] + tail
  }

  /** Rows `0 .. n-1` of `d`, ranked. */
  function Rank(d: seq<nat>, n: nat): (r: seq<nat>)
    requires n <= |d|
    ensures Ranked(d, r)
    ensures |r| == n
    ensures forall y: nat :: y in r <==> y < n
  {
    if n == 0 then [] else Insert(d, n - 1, Rank(d, n - 1))
  }

  /** The labels of one query's answer: the `min(k, n)` best-ranked rows,
      then `-1` for each remaining slot. The rows come in strictly
      increasing rank: by distance, the earlier row first on ties. */
  function Nearest(d: seq<nat>, k: nat): (labels: seq<int>)
    ensures |labels| == k
    ensures forall j :: 0 <= j < Min(k, |d|) ==> 0 <= labels[j] < |d|
    ensures forall j :: Min(k, |d|) <= j < k ==> labels[j] == Missing
    ensures forall j, j' :: 0 <= j < j' < Min(k, |d|) ==> Precedes(d, labels[j], labels[j'])
  {
    var ranked := Rank(d, |d|);
    seq(k, j requires 0 <= j < k => if j < Min(k, |d|) then ranked[j] as int else Missing)
  }

  /** What a `k`-nearest-neighbour answer over distances `d` must be: `k`
      labels; the first `min(k, n)` are distinct rows in nondecreasing
      distance, none farther than any row left out; the rest are `-1`. */
  predicate KnnAnswer(d: seq<nat>, k: nat, labels: seq<int>)
  {
    var m := Min(k, |d|);
    && |labels| == k
    && (forall j :: 0 <= j < m ==> 0 <= labels[j] < |d|)
    && (forall j :: m <= j < k ==> labels[j] == Missing)
    && (forall j, j' :: 0 <= j < j' < m ==> labels[j] != labels[j'])
    && (forall j, j' :: 0 <= j < j' < m ==> d[labels[j]] <= d[labels[j']])
    && (forall j, r :: 0 <= j < m && 0 <= r < |d| && r !in labels ==> d[labels[j]] <= d[r])
  }

  /** The answer's rows are the first rows of the full ranking. */
  lemma NearestPrefix(d: seq<nat>, k: nat)
    ensures var labels, ranked := Nearest(d, k), Rank(d, |d|);
      forall j :: 0 <= j < Min(k, |d|) ==> labels[j] == ranked[j] as int
  {
  }

  /** Any row missing from the answer is at least as far as every row in it. */
  lemma NearestNotFarther(d: seq<nat>, k: nat, j: nat, r: nat)
    requires j < Min(k, |d|) && r < |d| && r !in Nearest(d, k)
    ensures d[Nearest(d, k)[j]] <= d[r]
  {
    var ranked := Rank(d, |d|);
    var labels := Nearest(d, k);
    var m := Min(k, |d|);
    NearestPrefix(d, k);
    assert r in ranked;
    var p :| 0 <= p < |ranked| && ranked[p] == r;
    forall i | 0 <= i < m ensures ranked[i] != r {
      assert labels[i] in labels;
    }
    assert Precedes(d, ranked[j], ranked[p]);
  }

  /** The ranking answers every query correctly, and among rows at equal
      distance the earlier-added row comes first. */
  lemma NearestIsKnnAnswer(d: seq<nat>, k: nat)
    ensures KnnAnswer(d, k, Nearest(d, k))
    ensures var labels, m := Nearest(d, k), Min(k, |d|);
      forall j, j' :: 0 <= j < j' < m && d[labels[j]] == d[labels[j']] ==> labels[j] < labels[j']
  {
    var labels := Nearest(d, k);
    var m := Min(k, |d|);
    NearestPrefix(d, k);
    forall j, j' | 0 <= j < j' < m
      ensures labels[j] != labels[j'] && d[labels[j]] <= d[labels[j']]
      ensures d[labels[j]] == d[labels[j']] ==> labels[j] < labels[j']
    {
      assert Precedes(d, labels[j], labels[j']);
    }
    forall j, r | 0 <= j < m && 0 <= r < |d| && r !in labels
      ensures d[labels[j]] <= d[r]
    {
      NearestNotFarther(d, k, j, r);
    }
  }

  /** Two vectors of the same length are at distance zero exactly when they
      are equal. */
  lemma {:induction false} SqDistZeroIff(a: Vector, b: Vector)
    requires |a| == |b|
    ensures SqDist(a, b) == 0 <==> a == b
  {
    if |a| > 0 {
      SqDistZeroIff(a[1..], b[1..]);
      assert a == [a[0]] + a[1..] && b == [b[0]] + b[1..];
    }
  }

  /** When some row equals the query, the first answer is at distance zero. */
  lemma ExactMatchComesFirst(rows: seq<Vector>, q: Vector, k: nat, i: nat)
    requires i < |rows| && rows[i] == q && k > 0
    ensures var d := Distances(rows, q); var labels := Nearest(d, k);
      0 < |labels| && 0 <= labels[0] < |d| && d[labels[0]] == 0
  {
    var d := Distances(rows, q);
    SqDistZeroIff(q, q);
    NearestIsKnnAnswer(d, k);
    var labels := Nearest(d, k);
    if i !in labels {
      assert d[labels[0]] <= d[i];
    } else {
      var p :| 0 <= p < |labels| && labels[p] == i;
      assert d[labels[0]] <= d[labels[p]];
    }
  }

  lemma RankExample()
    ensures Rank([5, 1, 3, 1], 4) == [1, 3, 2, 0]
  {
    var d: seq<nat> := [5, 1, 3, 1];
    assert Rank(d, 2) == [1, 0] by {
      assert Rank(d, 1) == [0];
    }
    assert Rank(d, 3) == [1, 2, 0] by {
      assert Insert(d, 2, [0]) == [2, 0];
    }
    assert Insert(d, 3, [2, 0]) == [3, 2, 0];
  }

  /** Rows at distances 5, 1, 3, 1 answer a search for two with rows 1 and
      3: nearest first, and the earlier row first among equals. */
  lemma TwoNearestExample()
    ensures Nearest([5, 1, 3, 1], 2) == [1, 3]
  {
    var d: seq<nat> := [5, 1, 3, 1];
    RankExample();
    var labels := Nearest(d, 2);
    assert |d| == 4 && Min(2, |d|) == 2;
    assert |labels| == 2 && labels[0] == 1 && labels[1] == 3;
    assert labels == [1, 3];
  }

  // ---------------------------------------------------------------------
  // Operations
  // ---------------------------------------------------------------------

  /** `IndexFlatL2(dim)`: an index with no rows. */
  function NewIndex(dim: nat): FlatIndex
  {
    FlatIndex(dim, [])
  }

  /** `index.add(x)`: every vector must have the index's dimension; then the
      rows are appended in order. */
  function Add(ix: FlatIndex, batch: seq<Vector>): (r: Result<FlatIndex>)
    ensures r.Success? <==> forall i :: 0 <= i < |batch| ==> |batch[i]| == ix.dim
    ensures r.Success? ==> r.value == FlatIndex(ix.dim, ix.rows + batch)
  {
    if forall i :: 0 <= i < |batch| ==> |batch[i]| == ix.dim
    then Success(FlatIndex(ix.dim, ix.rows + batch))
    else Failure(DimensionMismatch)
  }

  /** `index.search(x, k)`: for every query vector, its `k` labels. */
  function Search(ix: FlatIndex, queries: seq<Vector>, k: nat): (r: Result<seq<seq<int>>>)
    ensures r.Success? <==> forall i :: 0 <= i < |queries| ==> |queries[i]| == ix.dim
    ensures r.Success? ==> |r.value| == |queries|
    ensures r.Success? ==> forall i :: 0 <= i < |queries| ==>
      KnnAnswer(Distances(ix.rows, queries[i]), k, r.value[i])
  {
    if forall i :: 0 <= i < |queries| ==> |queries[i]| == ix.dim then
      var answers := seq(|queries|, i requires 0 <= i < |queries| => Nearest(Distances(ix.rows, queries[i]), k));
      assert forall i :: 0 <= i < |queries| ==> KnnAnswer(Distances(ix.rows, queries[i]), k, answers[i]) by {
        forall i | 0 <= i < |queries| ensures KnnAnswer(Distances(ix.rows, queries[i]), k, answers[i]) {
          NearestIsKnnAnswer(Distances(ix.rows, queries[i]), k);
        }
      }
      Success(answers)
    else Failure(DimensionMismatch)
  }
}

=== FILE: numbers.dfy ===
/** Integer helpers shared by the chunker and the index. */
module Numbers {
  function Min(a: int, b: int): int
  {
    if a <= b then a else b
  }
}

=== FILE: outcomes.dfy ===
/** Optional values and the success-or-error results that stand in for Python's
    `None` and for exceptions carrying a message (`str(e)`). */
module Outcomes {

  datatype Option<+T> = None | Some(value: T)

  /** A computation that either produced a value or raised an exception whose
      text is `error`. */
  datatype Result<+T> = Success(value: T) | Failure(error: string)
}

=== FILE: pdf_ingest.dfy ===
/** PDF ingestion: the page texts (as the PDF library returns them) are joined
    with a blank line, chunked with fixed settings, and each chunk is paired
    with its source file name and ordinal. */
module PdfIngest {
  import opened Text
  import opened Chunker

  /** Metadata attached to every chunk: `{"source": filename, "chunk": i}`. */
  datatype Meta = Meta(source: string, chunk: nat)

  const PageSeparator: string := "\n\n"
  const IngestChunkSize: int := 400
  const IngestOverlap: int := 50

  /** `extract_text_from_pdf_bytes` once the pages are read: their texts in
      page order joined by a blank line. Because the separator is
      whitespace, the tokens of the result are the pages' tokens in page
      order: no token spans two pages. */
  function ExtractText(pages: seq<string>): (text: string)
    ensures Words(text) == PageTokens(pages)
    ensures |pages| == 1 ==> text == pages[0]
  {
    assert AllSpace(PageSeparator);
    WordsOfJoin(PageSeparator, pages);
    Join(PageSeparator, pages)
  }

  /** The tokens of the whole document, page after page. */
  function PageTokens(pages: seq<string>): seq<string>
  {
    Flatten(WordsOfEach(pages))
  }

  /** The `for i, c in enumerate(chunks)` loop of `ingest_pdf_bytes`, from
      ordinal `i` on. */
  function PairFrom(chunks: seq<string>, filename: string, i: nat): (r: seq<(string, Meta)>)
    requires i <= |chunks|
    ensures |r| == |chunks| - i
    ensures forall k :: 0 <= k < |r| ==> r[k] == (chunks[i + k], Meta(filename, i + k))
    decreases |chunks| - i
  {
    if i == |chunks| then []
    else [(chunks[i], Meta(filename, i))] + PairFrom(chunks, filename, i + 1)
  }

  /** `ingest_pdf_bytes(pdf_bytes, filename)`, given the page texts: one pair
      per chunk of the extracted text chunked with 400/50; pair `i` carries
      chunk `i`, the file name and ordinal `i`; re-splitting chunk `i` gives
      window `i` of the document's tokens (windows of 400 tokens whose starts
      are 350 apart), and `i` is an ordinal exactly when `350 * i` is below
      the token count. */
  function Ingest(pages: seq<string>, filename: string): (r: seq<(string, Meta)>)
    ensures var chunks := ChunkText(ExtractText(pages), 400, 50);
      && |r| == |chunks|
      && (forall i :: 0 <= i < |r| ==> r[i] == (chunks[i], Meta(filename, i)))
    ensures forall i :: 0 <= i < |r| ==> Words(r[i].0) == Window(PageTokens(pages), 400, 350, i)
    ensures forall j: nat :: j < |r| <==> Start(j, 350) < |PageTokens(pages)|
  {
    var text := ExtractText(pages);
    var chunks := ChunkText(text, IngestChunkSize, IngestOverlap);
    assert forall i :: 0 <= i < |chunks| ==> Words(chunks[i]) == Window(PageTokens(pages), 400, 350, i) by {
      forall i | 0 <= i < |chunks| ensures Words(chunks[i]) == Window(PageTokens(pages), 400, 350, i) {
        ChunkTokens(text, 400, 50, i);
      }
    }
    PairFrom(chunks, filename, 0)
  }

  // ---------------------------------------------------------------------
  // Lemmas
  // ---------------------------------------------------------------------

  /** A document of 1000 tokens gives three chunks of 400, 400 and 300
      tokens starting at tokens 0, 350 and 700, numbered 0, 1, 2. */
  lemma ThousandTokenDocument(pages: seq<string>, filename: string)
    requires |PageTokens(pages)| == 1000
    ensures var r, tokens := Ingest(pages, filename), PageTokens(pages);
      && |r| == 3
      && Words(r[0].0) == tokens[0..400] && r[0].1.chunk == 0
      && Words(r[1].0) == tokens[350..750] && r[1].1.chunk == 1
      && Words(r[2].0) == tokens[700..1000] && r[2].1.chunk == 2
  {
    var r := Ingest(pages, filename);
    assert Start(1, 350) == 350 && Start(2, 350) == 700 && Start(3, 350) == 1050;
    assert |r| == 3 by {
      assert 2 < |r|;
      assert !(3 < |r|);
    }
  }
}

=== FILE: text.dfy ===
/** The two string operations the pipeline is built on: Python's argument-less
    `str.split()` (split on runs of whitespace, dropping empty pieces) and
    `sep.join(parts)`. */
module Text {

  /** The characters Python's `str.isspace()` accepts, which are exactly the
      separators of an argument-less `str.split()`. */
  predicate IsSpace(c: char)
  {
    || ('\t' <= c <= '\r')
    || ('\U{1C}' <= c <= '\U{1F}')
    || c == ' ' || c == '\U{85}' || c == '\U{A0}' || c == '\U{1680}'
    || ('\U{2000}' <= c <= '\U{200A}')
    || c == '\U{2028}' || c == '\U{2029}' || c == '\U{202F}' || c == '\U{205F}' || c == '\U{3000}'
  }

  predicate AllSpace(s: string)
  {
    forall i :: 0 <= i < |s| ==> IsSpace(s[i])
  }

  /** A token `str.split()` can produce: nonempty and free of whitespace. */
  predicate IsWord(w: string)
  {
    |w| > 0 && forall i :: 0 <= i < |w| ==> !IsSpace(w[i])
  }

  predicate AllWords(ws: seq<string>)
  {
    forall i :: 0 <= i < |ws| ==> IsWord(ws[i])
  }

  /** The longest prefix of `s` that holds no whitespace. */
  function LeadingWord(s: string): (w: string)
    ensures w <= s
    ensures forall i :: 0 <= i < |w| ==> !IsSpace(w[i])
    ensures |w| == |s| || IsSpace(s[|w|])
  {
    if |s| == 0 || IsSpace(s[0]) then "" else [s[0]] + LeadingWord(s[1..])
  }

  /** Python's `s.split()` with no argument. */
  function Words(s: string): (ws: seq<string>)
    ensures AllWords(ws)
    decreases |s|
  {
    if |s| == 0 then []
    else if IsSpace(s[0]) then Words(s[1..])
    else
      var w := LeadingWord(s);
      [w] + Words(s[|w|..])
  }

  /** Python's `sep.join(parts)`. */
  function Join(sep: string, parts: seq<string>): string
  {
    if |parts| == 0 then ""
    else if |parts| == 1 then parts[0]
    else parts[0] + sep + Join(sep, parts[1..])
  }

  /** Concatenation of a sequence of sequences, in order. */
  function Flatten<T>(xss: seq<seq<T>>): seq<T>
  {
    if |xss| == 0 then [] else xss[0] + Flatten(xss[1..])
  }

  /** The tokens of each string, one list per string. */
  function WordsOfEach(ps: seq<string>): (r: seq<seq<string>>)
    ensures |r| == |ps|
    ensures forall i :: 0 <= i < |ps| ==> r[i] == Words(ps[i])
  {
    if |ps| == 0 then [] else [Words(ps[0])] + WordsOfEach(ps[1..])
  }

  // ---------------------------------------------------------------------
  // Splitting
  // ---------------------------------------------------------------------

  /** A text splits into no tokens exactly when it is empty or all whitespace. */
  lemma {:induction false} WordsEmptyIff(s: string)
    ensures Words(s) == [] <==> AllSpace(s)
    decreases |s|
  {
    if |s| > 0 {
      if IsSpace(s[0]) {
        WordsEmptyIff(s[1..]);
        assert AllSpace(s) <==> AllSpace(s[1..]) by {
          if AllSpace(s[1..]) {
            forall i | 0 <= i < |s| ensures IsSpace(s[i]) {
              if i > 0 { assert s[i] == s[1..][i - 1]; }
            }
          }
          if AllSpace(s) {
            forall i | 0 <= i < |s[1..]| ensures IsSpace(s[1..][i]) {
              assert s[1..][i] == s[i + 1];
            }
          }
        }
      } else {
        assert !AllSpace(s);
      }
    }
  }

  lemma {:induction false} LeadingWordAppend(a: string, b: string)
    requires b == [] || IsSpace(b[0])
    ensures LeadingWord(a + b) == LeadingWord(a)
    decreases |a|
  {
    if |a| == 0 {
      assert a + b == b;
    } else if !IsSpace(a[0]) {
      assert (a + b)[1..] == a[1..] + b;
      LeadingWordAppend(a[1..], b);
    }
  }

  /** Splitting distributes over concatenation when the second part starts
      with whitespace: no token can straddle the boundary. */
  lemma {:induction false} WordsAppend(a: string, b: string)
    requires b == [] || IsSpace(b[0])
    ensures Words(a + b) == Words(a) + Words(b)
    decreases |a|
  {
    if |a| == 0 {
      assert a + b == b;
    } else if IsSpace(a[0]) {
      WordsAppendSpaceStep(a, b);
      WordsAppend(a[1..], b);
    } else {
      var w := LeadingWord(a);
      WordsAppendWordStep(a, b);
      WordsAppend(a[|w|..], b);
      assert [w] + (Words(a[|w|..]) + Words(b)) == ([w] + Words(a[|w|..])) + Words(b);
    }
  }

  lemma WordsAppendSpaceStep(a: string, b: string)
    requires |a| > 0 && IsSpace(a[0])
    ensures Words(a + b) == Words(a[1..] + b)
    ensures Words(a) == Words(a[1..])
  {
    assert (a + b)[0] == a[0];
    assert (a + b)[1..] == a[1..] + b;
  }

  lemma WordsAppendWordStep(a: string, b: string)
    requires |a| > 0 && !IsSpace(a[0])
    requires b == [] || IsSpace(b[0])
    ensures var w := LeadingWord(a);
      && 0 < |w| <= |a|
      && Words(a + b) == [w] + Words(a[|w|..] + b)
      && Words(a) == [w] + Words(a[|w|..])
  {
    var w := LeadingWord(a);
    LeadingWordAppend(a, b);
    WordsUnfold(a);
    WordsUnfold(a + b);
    SliceOfAppend(a, b, |w|);
  }

  lemma WordsUnfold(s: string)
    requires |s| > 0 && !IsSpace(s[0])
    ensures 0 < |LeadingWord(s)|
    ensures Words(s) == [LeadingWord(s)] + Words(s[|LeadingWord(s)|..])
  {
  }

  lemma SliceOfAppend(a: string, b: string, k: nat)
    requires k <= |a|
    ensures (a + b)[k..] == a[k..] + b
  {
  }

  /** Leading whitespace contributes no tokens. */
  lemma {:induction false} WordsSkipSpaces(sp: string, x: string)
    requires AllSpace(sp)
    ensures Words(sp + x) == Words(x)
    decreases |sp|
  {
    if |sp| > 0 {
      assert (sp + x)[1..] == sp[1..] + x;
      assert AllSpace(sp[1..]) by {
        forall i | 0 <= i < |sp[1..]| ensures IsSpace(sp[1..][i]) {
          assert sp[1..][i] == sp[i + 1];
        }
      }
      WordsSkipSpaces(sp[1..], x);
    } else {
      assert sp + x == x;
    }
  }

  lemma {:induction false} LeadingWordOfWord(w: string)
    requires forall i :: 0 <= i < |w| ==> !IsSpace(w[i])
    ensures LeadingWord(w) == w
    decreases |w|
  {
    if |w| > 0 {
      assert forall i :: 0 <= i < |w[1..]| ==> !IsSpace(w[1..][i]) by {
        forall i | 0 <= i < |w[1..]| ensures !IsSpace(w[1..][i]) {
          assert w[1..][i] == w[i + 1];
        }
      }
      LeadingWordOfWord(w[1..]);
    }
  }

  /** A slice of a token list is a token list. */
  lemma AllWordsSlice(ws: seq<string>, lo: nat, hi: nat)
    requires AllWords(ws) && lo <= hi <= |ws|
    ensures AllWords(ws[lo..hi])
  {
    forall k | 0 <= k < hi - lo ensures IsWord(ws[lo..hi][k]) {
      assert ws[lo..hi][k] == ws[lo + k];
    }
  }

  /** A single token splits into itself. */
  lemma WordsOfWord(w: string)
    requires IsWord(w)
    ensures Words(w) == [w]
  {
    LeadingWordOfWord(w);
    assert w[|w|..] == [];
  }

  // ---------------------------------------------------------------------
  // Joining
  // ---------------------------------------------------------------------

  /** Round trip: tokens joined with single spaces split back into the same
      tokens. */
  lemma {:induction false} WordsOfSpaceJoin(ws: seq<string>)
    requires AllWords(ws)
    ensures Words(Join(" ", ws)) == ws
    decreases |ws|
  {
    if |ws| == 1 {
      WordsOfWord(ws[0]);
    } else if |ws| > 1 {
      var rest := Join(" ", ws[1..]);
      assert Join(" ", ws) == ws[0] + (" " + rest);
      WordsAppend(ws[0], " " + rest);
      WordsOfWord(ws[0]);
      assert AllSpace(" ");
      WordsSkipSpaces(" ", rest);
      assert AllWords(ws[1..]) by {
        forall i | 0 <= i < |ws[1..]| ensures IsWord(ws[1..][i]) {
          assert ws[1..][i] == ws[i + 1];
        }
      }
      WordsOfSpaceJoin(ws[1..]);
      assert ws == [ws[0]] + ws[1..];
    }
  }

  /** Joining with a nonempty whitespace separator and then splitting gives
      the tokens of each part, concatenated in order. */
  lemma {:induction false} WordsOfJoin(sep: string, parts: seq<string>)
    requires |sep| > 0 && AllSpace(sep)
    ensures Words(Join(sep, parts)) == Flatten(WordsOfEach(parts))
    decreases |parts|
  {
    if |parts| == 0 {
    } else if |parts| == 1 {
      assert Flatten(WordsOfEach(parts)) == Words(parts[0]) + Flatten(WordsOfEach(parts)[1..]);
      assert WordsOfEach(parts)[1..] == [];
      assert Words(parts[0]) + [] == Words(parts[0]);
    } else {
      var rest := Join(sep, parts[1..]);
      assert Join(sep, parts) == parts[0] + (sep + rest);
      WordsAppend(parts[0], sep + rest);
      WordsSkipSpaces(sep, rest);
      WordsOfJoin(sep, parts[1..]);
      assert WordsOfEach(parts)[1..] == WordsOfEach(parts[1..]);
    }
  }

  /** Appending one part extends the joined text by the separator and that
      part. */
  lemma {:induction false} JoinSnoc(sep: string, parts: seq<string>, x: string)
    ensures Join(sep, parts + [x]) == if |parts| == 0 then x else Join(sep, parts) + sep + x
    decreases |parts|
  {
    if |parts| == 1 {
      assert parts + [x] == [parts[0], x];
    } else if |parts| > 1 {
      assert (parts + [x])[1..] == parts[1..] + [x];
      JoinSnoc(sep, parts[1..], x);
    }
  }
}

=== FILE: vector_store.dfy ===
/** `FaissStore`: chunk texts and their metadata kept in two parallel lists,
    next to a flat L2 index that holds one embedding row per entry. The index
    is created lazily by the first `add`. The embedding service is an oracle
    `Embedder` that may fail. */
module VectorStore {
  import opened Outcomes
  import L2Index

  type Vector = L2Index.Vector

  /** The embedding service: a batch of texts to one vector per text, or an
      error. */
  type Embedder = seq<string> -> Result<seq<Vector>>

  /** One search result, `{"metadata": ..., "text": ...}`. */
  datatype Hit<M> = Hit(metadata: M, text: string)

  datatype Store<M> = Store(
    dim: nat,
    index: Option<L2Index.FlatIndex>,
    metadatas: seq<M>,
    texts: seq<string>)

  /** Dimension of the process-wide store. */
  const DefaultDim: nat := 1536

  /** Message of the `IndexError` Python raises for a list index out of range. */
  const ListIndexError: string := "list index out of range"

  /** Message of the `ValueError` the index's search raises when the query
      embedding is the empty one-dimensional array `_embed` builds from an
      empty service answer: `n, d = x.shape` cannot unpack its shape. */
  const EmptyQueryError: string := "not enough values to unpack (expected 2, got 1)"

  /** The rows of the index, or none while it is not created. */
  function Rows<M>(s: Store<M>): seq<Vector>
  {
    if s.index.None? then [] else s.index.value.rows
  }

  /** The store invariant: one metadata and one index row per text, in the
      same order, and no entries before the index exists. */
  predicate WellFormed<M>(s: Store<M>)
  {
    && |s.texts| == |s.metadatas|
    && (s.index.None? ==> s.texts == [])
    && (s.index.Some? ==> s.index.value.dim == s.dim && |s.index.value.rows| == |s.texts|)
  }

  /** `FaissStore(dim)`. */
  function NewStore<M>(dim: nat): (s: Store<M>)
    ensures WellFormed(s)
    ensures s.index.None? && s.texts == [] && s.metadatas == [] && Rows(s) == []
    ensures s.dim == dim
  {
    Store(dim, None, [], [])
  }

  /** `create_index`: a fresh empty index of the store's dimension; the
      texts and metadatas are left as they are. */
  function CreateIndex<M>(s: Store<M>): (r: Store<M>)
    ensures r.index.Some? && r.index.value.dim == s.dim && Rows(r) == []
    ensures r.dim == s.dim && r.texts == s.texts && r.metadatas == s.metadatas
  {
    s.(index := Some(L2Index.NewIndex(s.dim)))
  }

  /** `_embed`: an empty batch is answered locally with no vectors; any other
      batch goes to the service. */
  function Embed(texts: seq<string>, service: Embedder): (r: Result<seq<Vector>>)
    ensures texts == [] ==> r == Success([])
    ensures texts != [] ==> r == service(texts)
  {
    if |texts| == 0 then Success([]) else service(texts)
  }

  /** Number of scalars in a batch of vectors (numpy's `.size`). */
  function Size(batch: seq<Vector>): nat
  {
    if |batch| == 0 then 0 else |batch[0]| + Size(batch[1..])
  }

  /** The state after `add`, and the exception it raised, if any. */
  datatype AddOutcome<M> = AddOutcome(store: Store<M>, error: Option<string>)

  /** `add(texts, metadatas)`: create the index if needed, embed, append the
      rows (only when there are any), then the metadatas, then the texts. The
      index is created before embedding, so it exists even when `add` fails.
      Nothing checks that the two lists have the same length. */
  function Add<M>(s: Store<M>, texts: seq<string>, metadatas: seq<M>, service: Embedder): (r: AddOutcome<M>)
    ensures r.store.dim == s.dim && r.store.index.Some?
    ensures r.store.index.value.dim == if s.index.Some? then s.index.value.dim else s.dim
    ensures r.error.Some? ==> r.store.texts == s.texts && r.store.metadatas == s.metadatas
    ensures r.error.Some? ==> Rows(r.store) == Rows(s)
    ensures r.error.None? ==> r.store.texts == s.texts + texts && r.store.metadatas == s.metadatas + metadatas
    ensures Embed(texts, service).Failure? ==> r.error == Some(Embed(texts, service).error)
    ensures Embed(texts, service).Success? ==>
      var batch := Embed(texts, service).value;
      && (Size(batch) > 0 ==>
            (r.error.None? <==> forall i :: 0 <= i < |batch| ==> |batch[i]| == r.store.index.value.dim))
      && (r.error.Some? ==> r.error == Some(L2Index.DimensionMismatch))
      && (r.error.None? ==> Rows(r.store) == Rows(s) + (if Size(batch) > 0 then batch else []))
      && (Size(batch) == 0 ==> r.error.None?)
  {
    var s1 := if s.index.None? then CreateIndex(s) else s;
    match Embed(texts, service)
    case Failure(e) => AddOutcome(s1, Some(e))
    case Success(batch) =>
      if Size(batch) > 0 then
        match L2Index.Add(s1.index.value, batch)
        case Failure(e) => AddOutcome(s1, Some(e))
        case Success(ix) =>
          AddOutcome(s1.(index := Some(ix), metadatas := s.metadatas + metadatas, texts := s.texts + texts), None)
      else
        AddOutcome(s1.(metadatas := s.metadatas + metadatas, texts := s.texts + texts), None)
  }

  /** Python's `xs[i]`: a negative `i` counts from the end. */
  function PyIndex<T>(xs: seq<T>, i: int): (r: Option<T>)
    ensures r.Some? <==> -|xs| <= i < |xs|
    ensures 0 <= i < |xs| ==> r == Some(xs[i])
    ensures -|xs| <= i < 0 ==> r == Some(xs[|xs| + i])
  {
    if 0 <= i < |xs| then Some(xs[i])
    else if -|xs| <= i < 0 then Some(xs[|xs| + i])
    else None
  }

  /** The loop over the labels in `search`: a label passes the guard when it
      is below `len(metadatas)`, and then both lists are indexed with it. */
  function Collect<M>(labels: seq<int>, metadatas: seq<M>, texts: seq<string>): (r: Result<seq<Hit<M>>>)
    ensures r.Success? ==> |r.value| <= |labels|
    ensures (forall j :: 0 <= j < |labels| ==> labels[j] >= |metadatas|) ==> r == Success([])
  {
    if |labels| == 0 then Success([])
    else
      var idx := labels[0];
      if idx < |metadatas| then
        match (PyIndex(metadatas, idx), PyIndex(texts, idx))
        case (Some(m), Some(t)) =>
          (match Collect(labels[1..], metadatas, texts)
           case Success(rest) => Success([Hit(m, t)] + rest)
           case Failure(e) => Failure(e))
        case _ => Failure(ListIndexError)
      else Collect(labels[1..], metadatas, texts)
  }

  /** `search(query, k)`: nothing to search before the first `add` or while
      there are no texts; otherwise embed the query, ask the index for `k`
      labels and map the first query's labels back to entries. */
  function Search<M>(s: Store<M>, query: string, k: nat, service: Embedder): (r: Result<seq<Hit<M>>>)
    ensures s.index.None? || |s.texts| == 0 ==> r == Success([])
    ensures r.Success? ==> |r.value| <= k
    ensures s.index.Some? && |s.texts| > 0 && service([query]).Failure? ==>
      r == Failure(service([query]).error)
    ensures s.index.Some? && |s.texts| > 0 && service([query]).Success? ==>
      var q := service([query]).value;
      && (!(forall i :: 0 <= i < |q| ==> |q[i]| == s.index.value.dim) ==> r == Failure(L2Index.DimensionMismatch))
      && (q == [] ==> r == Failure(EmptyQueryError))
  {
    if s.index.None? || |s.texts| == 0 then Success([])
    else
      match Embed([query], service)
      case Failure(e) => Failure(e)
      case Success(q) =>
        match L2Index.Search(s.index.value, q, k)
        case Failure(e) => Failure(e)
        case Success(answers) =>
          // No query vector: the library rejects the array's shape.
          if |answers| == 0 then Failure(EmptyQueryError)
          else Collect(answers[0], s.metadatas, s.texts)
  }

  // ---------------------------------------------------------------------
  // Lemmas
  // ---------------------------------------------------------------------

  /** `add([], [])` creates the index and changes nothing else. */
  lemma AddNothing<M>(s: Store<M>, service: Embedder)
    ensures var r := Add(s, [], [], service);
      && r.error.None?
      && r.store.texts == s.texts && r.store.metadatas == s.metadatas
      && Rows(r.store) == Rows(s) && r.store.index.Some?
  {
  }

  /** `add` keeps the store invariant when given one metadata per text and a
      service that answers with one nonempty vector per text. */
  lemma AddKeepsWellFormed<M>(s: Store<M>, texts: seq<string>, metadatas: seq<M>, service: Embedder)
    requires WellFormed(s)
    requires |texts| == |metadatas|
    requires service(texts).Success? ==>
      && |service(texts).value| == |texts|
      && forall i :: 0 <= i < |texts| ==> |service(texts).value[i]| > 0
    ensures WellFormed(Add(s, texts, metadatas, service).store)
  {
    var e := Embed(texts, service);
    if e.Success? && |texts| > 0 {
      assert Size(e.value) > 0;
    }
  }

  lemma {:induction false} CollectInRange<M>(labels: seq<int>, metadatas: seq<M>, texts: seq<string>)
    requires |texts| == |metadatas|
    requires forall j :: 0 <= j < |labels| ==> -|metadatas| <= labels[j] < |metadatas|
    ensures var r := Collect(labels, metadatas, texts);
      && r.Success? && |r.value| == |labels|
      && forall j :: 0 <= j < |labels| ==>
           var i := if labels[j] < 0 then |metadatas| + labels[j] else labels[j];
           r.value[j] == Hit(metadatas[i], texts[i])
  {
    if |labels| > 0 {
      CollectInRange(labels[1..], metadatas, texts);
    }
  }

  /** On a well-formed, nonempty store whose query embeds to one vector of
      the right dimension, `search` returns exactly `k` results: first the
      `min(k, n)` nearest entries in the index's order (metadata and text of
      the same row), then, for each `-1` padding label the guard lets
      through, the LAST entry again. */
  lemma SearchResults<M>(s: Store<M>, query: string, q: Vector, k: nat, service: Embedder)
    requires WellFormed(s) && |s.texts| > 0
    requires service([query]) == Success([q]) && |q| == s.dim
    ensures var r := Search(s, query, k, service);
      var n := |s.texts|;
      var labels := L2Index.Nearest(L2Index.Distances(Rows(s), q), k);
      && L2Index.KnnAnswer(L2Index.Distances(Rows(s), q), k, labels)
      && r.Success? && |r.value| == k
      && (forall j :: 0 <= j < k && j < n ==> r.value[j] == Hit(s.metadatas[labels[j]], s.texts[labels[j]]))
      && (forall j :: n <= j < k ==> r.value[j] == Hit(s.metadatas[n - 1], s.texts[n - 1]))
  {
    var d := L2Index.Distances(Rows(s), q);
    var labels := L2Index.Nearest(d, k);
    L2Index.NearestIsKnnAnswer(d, k);
    var answers := L2Index.Search(s.index.value, [q], k);
    assert answers.Success?;
    assert answers.value[0] == labels;
    CollectInRange(labels, s.metadatas, s.texts);
  }

  /** The padding in action: a store holding a single entry answers a
      search for four results with that entry four times. */
  lemma SingleEntryRepeats(m: string, t: string, v: Vector, query: string, q: Vector, service: Embedder)
    requires |v| == DefaultDim
    requires service([query]) == Success([q]) && |q| == DefaultDim
    ensures var s := Store(DefaultDim, Some(L2Index.FlatIndex(DefaultDim, [v])), [m], [t]);
      Search(s, query, 4, service) == Success([Hit(m, t), Hit(m, t), Hit(m, t), Hit(m, t)])
  {
    var s := Store(DefaultDim, Some(L2Index.FlatIndex(DefaultDim, [v])), [m], [t]);
    SearchResults(s, query, q, 4, service);
    var r := Search(s, query, 4, service).value;
    var labels := L2Index.Nearest(L2Index.Distances(Rows(s), q), 4);
    assert labels[0] == 0;
    assert r == [Hit(m, t), Hit(m, t), Hit(m, t), Hit(m, t)];
  }
}
